=== FILE: README.md ===
# Excel add-in core, modelled in Dafny

The add-in is a task pane for Excel. The user types a request. The panel reads
a sample of the active sheet, asks the Gemini model for a formula or a JSON
array of values, writes the answer into the sheet, and records it in a
history list.

This project models the decision logic of that flow, as pure functions over
immutable data:

- `JsStrings`: JavaScript strings as UTF-16 code units, plus the string
  operations the core relies on. `trim` is proved equal to a reference
  definition. Decimal rendering is proved to round-trip.
- `Json`: the values `JSON.parse` can return. The parser itself is an oracle.
- `GeminiService`: `processWithGemini`.
  - The request is built once and sent up to three times.
  - 404 and 429 answers are retried after 3000 ms, then 6000 ms.
  - Every other failure is thrown with its message.
  - A reply text is classified as a single trimmed value or a JSON array.
  - The network is a sequence of responses, one per `fetch`. The sleeps
    become the list of waits the loop would have slept.
- `ExcelService`:
  - the sample `getSurroundingData` builds from the used range, keyed by
    header text or by generated column letters;
  - the write plans of `writeToActiveCell`, `writeToCell` and
    `writeArrayToRange`: where the write lands, how the range is resized,
    the matrix assigned, and whether it goes to `formulas` or to `values`.
- `MainPanel`:
  - `handleProcess`: the guards, the state while the services run, the
    error and history updates at the end, and the services called, in order;
  - `clearHistory`;
  - the prompt-edit and error-dismiss handlers, composed into runs of
    events.

What the awaited services do is given as an `Environment` of outcomes.

Two behaviours of the code are easy to misread, and the model states both.

1. **Three 404/429 answers.** The third attempt has no attempt left, so
   the third answer's HTTP error is thrown (src/services/GeminiService.ts:64-71).
   The "retries exhausted" error after the loop
   (src/services/GeminiService.ts:97) is unreachable.
   `GeminiService.ProcessWithGemini` proves it is never the outcome, and
   `GeminiService.ThreeTransientsFail` shows what is thrown instead.
2. **Column keys past the 26th column.** Column `i` is keyed by the single
   code unit `65 + i` (src/services/ExcelService.ts:37): `[` for column 26,
   then `\`, and so on, not a second letter. These keys are pairwise
   distinct for the first 65536 columns and only wrap after that. See
   `ExcelService.ColumnKeysDistinct` and `ExcelService.ColumnKeyWraps`.

## Model

| member | source | states |
|---|---|---|
| JsStrings.TrimStart | src/services/GeminiService.ts:81 | the text left after stripping leading whitespace is a suffix of the input; what was cut is all whitespace, and the rest does not start with whitespace |
| JsStrings.TrimEnd | src/services/GeminiService.ts:81 | the symmetric statement for trailing whitespace |
| JsStrings.Trim | src/components/MainPanel.tsx:123 | `trim()` gives the empty string exactly when the input is all ECMAScript whitespace, which is the prompt guard's test |
| JsStrings.TrimIsTrim | src/services/GeminiService.ts:81 | `trim` meets the reference definition: an infix surrounded only by whitespace that neither starts nor ends with whitespace |
| JsStrings.TrimUnique | src/services/GeminiService.ts:81 | any string meeting the reference definition is the result of `trim`, so the definition pins `trim` down |
| JsStrings.TrimIdempotent | src/services/GeminiService.ts:81 | trimming a trimmed text changes nothing |
| JsStrings.Decimal | src/components/MainPanel.tsx:146 | a count renders as at least one decimal digit, without a leading zero |
| JsStrings.DecimalRoundTrip | src/components/MainPanel.tsx:146 | reading the rendered digits back gives the count |
| JsStrings.DecimalInjective | src/services/GeminiService.ts:71 | different status codes render differently |
| GeminiService.HttpErrorMessage | src/services/GeminiService.ts:65-71 | a failed response throws the body's non-empty `error.message`; otherwise, including an unreadable body, it throws exactly `HTTP <status>: <statusText>`; the message is never empty |
| GeminiService.StatusReadBack | src/services/GeminiService.ts:71 | the status code can be read back from the fallback message: the digits after `HTTP ` are the status |
| GeminiService.FallbackMessagesDistinct | src/services/GeminiService.ts:71 | two fallback messages for different status codes differ, whatever their status texts |
| GeminiService.Classify | src/services/GeminiService.ts:81-94 | the result is an array exactly when the trimmed text is bracketed and parses to a JSON array, carrying that array's elements; otherwise it is the trimmed text; classification never fails |
| GeminiService.Settle | src/services/GeminiService.ts:64-94 | an answer that is not retried succeeds exactly when it is ok with a non-empty text, and its value is then the classified text; a failed HTTP answer throws its HTTP error; an ok answer whose body is not JSON throws the decoding error; an ok answer without text throws the no-response error; a network failure throws its own error; never the exhausted error |
| GeminiService.Loop | src/services/GeminiService.ts:55-97 | from a given attempt on, the same request is sent once per answer consumed; every answer before the last was a 404/429; the wait before attempt `a + 1` is `a * 3000`; the outcome is the last answer's settlement |
| GeminiService.ProcessWithGemini | src/services/GeminiService.ts:25-98 | one to three identical requests built from key, prompt and context; retries only after 404/429; waits are a prefix of 3000, 6000; the outcome is decided by the last answer; the exhausted error is never thrown |
| GeminiService.SentCount | src/services/GeminiService.ts:55-70 | the number of requests is one more than the leading run of 404/429 answers, at most three |
| GeminiService.ThreeTransientsFail | src/services/GeminiService.ts:64-71 | three 404/429 answers give three requests, waits 3000 and 6000, and the third answer's HTTP error |
| GeminiService.FirstFinalAnswerDecides | src/services/GeminiService.ts:64-79 | the first answer that is not retried decides the outcome: its HTTP error, the decoding error for an ok answer whose body is not JSON, the no-response error for an ok JSON body without text, the network error, or the classified text |
| GeminiService.LoopReadsOnlyWhatItSends | src/services/GeminiService.ts:55-95 | the loop reads no answer beyond the one it settles on |
| GeminiService.OnlyConsumedResponsesMatter | src/services/GeminiService.ts:25-98 | two networks that agree on the answers the call consumed give the same requests, waits and outcome |
| ExcelService.Assigned | src/services/ExcelService.ts:26-28 | after the first `n` assignments the object holds exactly the keys assigned so far, minus `__proto__` |
| ExcelService.AssignedLatest | src/services/ExcelService.ts:26-28 | a key holds the value of its latest assignment |
| ExcelService.AllAssignedLatest | src/services/ExcelService.ts:26-28 | every key whose assignment is its last occurrence holds that assignment's value |
| ExcelService.BuildObject | src/services/ExcelService.ts:36-39 | the row object holds every key but `__proto__`, and a repeated key keeps the value of its last occurrence |
| ExcelService.HeaderCellsFrom | src/services/ExcelService.ts:20 | `every` over the cells from an index on holds exactly when each of them is a header cell |
| ExcelService.HasHeaders | src/services/ExcelService.ts:20 | the first row is a header row exactly when every cell is text that is not blank after trimming; vacuously true of an empty row |
| ExcelService.HeaderCellTrimmed | src/services/ExcelService.ts:20 | the header test is a string check followed by `trim() !== ''` |
| ExcelService.HeaderTexts | src/services/ExcelService.ts:23 | the headers are the texts of the first row's cells, in order |
| ExcelService.ExtractSample | src/services/ExcelService.ts:12-43 | an empty range gives no rows; with headers and another row inside the 50-row cap, the rows after the header are keyed by the headers; otherwise every capped row is keyed by letters |
| ExcelService.OnlyFirstRowsRead | src/services/ExcelService.ts:16 | cutting the range to its first 50 rows does not change the sample |
| ExcelService.SameFirstRowsSameSample | src/services/ExcelService.ts:16 | two ranges that agree on their first 50 rows give the same sample |
| ExcelService.HeaderFallbackDead | src/services/ExcelService.ts:27 | with headers, the `Column<i>` fallback never fires |
| ExcelService.HeaderModeRow | src/services/ExcelService.ts:22-31 | a header-mode sample row holds exactly the header texts other than `__proto__`, and under each header the cell below it, or `undefined` past the end of the row |
| ExcelService.ColumnKeysDistinct | src/services/ExcelService.ts:37 | generated column keys are pairwise distinct below 65536 columns |
| ExcelService.ColumnKeyWraps | src/services/ExcelService.ts:37 | `String.fromCharCode` wraps at 2^16, and column 26 is keyed `[` rather than a letter |
| ExcelService.ColumnKeyNeverProto | src/services/ExcelService.ts:37-38 | no generated column key is `__proto__`, so no column is dropped |
| ExcelService.LetterRowKeys | src/services/ExcelService.ts:34-41 | the keys of a letter-keyed row are exactly the generated keys of its columns |
| ExcelService.LetterRowValue | src/services/ExcelService.ts:36-39 | for up to 65536 columns, each column's key holds that column's cell |
| ExcelService.LetterModeRow | src/services/ExcelService.ts:32-42 | a letter-mode sample row is the source row at the same index, every column under its generated key |
| ExcelService.WriteToActiveCell | src/services/ExcelService.ts:47-57 | a 1x1 write to the selection, as a formula exactly when the value starts with `=` |
| ExcelService.WriteToCell | src/services/ExcelService.ts:59-71 | the same 1x1 write, to the named cell |
| ExcelService.SomeFormulaFrom | src/services/ExcelService.ts:84 | `some` from an index on: false when every element is plain text, true exactly when a formula comes before any non-string, a TypeError at the first non-string otherwise, reading a property of null exactly when that element is null |
| ExcelService.SomeFormula | src/services/ExcelService.ts:84 | the formula scan over the whole array, with the same three outcomes and the same two TypeErrors |
| ExcelService.WriteArrayToRange | src/services/ExcelService.ts:73-93 | the call throws exactly when a non-string element comes before any formula, at the first such element, with the null or the not-a-function TypeError; otherwise the selection grows by `length - 1` rows, the block is one column of the values in order, and it is written as formulas exactly when some element is a formula |
| ExcelService.SingletonArrayWritesLikeSingle | src/services/ExcelService.ts:73-93 | a one-element array is written exactly as `writeToActiveCell` writes its value |
| MainPanel.FailureText | src/components/MainPanel.tsx:158 | the error shown is the prefix `Lỗi: ` followed by the message, or by the default text when the message is empty |
| MainPanel.ArraySummaryCount | src/components/MainPanel.tsx:146 | the history line of an array write names how many values were written |
| MainPanel.Dispatch | src/components/MainPanel.tsx:128-161 | loading is set and the error cleared before the first await; at the end loading is off, only error and history differ, history gains at most one entry and none when an error is shown; the sheet is read first |
| MainPanel.HandleProcess | src/components/MainPanel.tsx:118-162 | without a key, or with a blank prompt, only the error changes and no service is called; otherwise the run goes as in `Dispatch` and the prompt is kept |
| MainPanel.KeyCheckedFirst | src/components/MainPanel.tsx:119-126 | the key is checked before the prompt |
| MainPanel.SingleAnswerRecorded | src/components/MainPanel.tsx:149-155 | a non-empty single answer is written to the active cell and recorded once, with the answer as its result |
| MainPanel.ArrayAnswerRecorded | src/components/MainPanel.tsx:142-148 | an array answer that the script can write is written as a column and recorded once, with the count as its result |
| MainPanel.ArrayTypeErrorReported | src/components/MainPanel.tsx:142-158 | an array answer with a non-string before any formula makes the write throw a TypeError: no history entry, and the TypeError's message is shown |
| MainPanel.EmptyAnswerIgnored | src/components/MainPanel.tsx:149 | an empty single answer writes nothing, records nothing and shows no error |
| MainPanel.SampleFailureReported | src/components/MainPanel.tsx:132 | when reading the sheet throws, Gemini is not asked, the message is shown, and prompt and history stay |
| MainPanel.GeminiFailureReported | src/components/MainPanel.tsx:133 | when the Gemini call throws, nothing is written and the message is shown |
| MainPanel.WriteFailureReported | src/components/MainPanel.tsx:143-158 | when the host rejects the write, no history entry is made and the message is shown |
| MainPanel.GatewayHttpErrorShown | src/components/MainPanel.tsx:157-158 | when `processWithGemini` itself fails with an HTTP error, its message is non-empty and the panel shows it after the prefix, never the default text |
| MainPanel.ClearHistory | src/components/MainPanel.tsx:164-166 | the history empties and nothing else changes |
| MainPanel.Apply | src/components/MainPanel.tsx:274-290 | editing the prompt stores the new text, or the empty text for `undefined`, and changes nothing else; dismissing clears only the error; a clear empties only the history; a run keeps the prompt and only appends to the history, by at most one entry |
| MainPanel.Run | src/components/MainPanel.tsx:274-290 | a run of prompt edits and dismissals never changes the history |
| MainPanel.HistoryOnlyAppends | src/components/MainPanel.tsx:142-155 | until a clear, history only grows at the end, by at most one entry per event |
| MainPanel.HistorySinceLastClear | src/components/MainPanel.tsx:164-166 | after a clear, the history holds at most one entry per later event |
| MainPanel.HistoryBoundedByRequests | src/components/MainPanel.tsx:142-155 | history entries come only from requests: a run of events adds at most one entry per request, whatever clears, edits and dismissals it holds |
| MainPanel.FreshPanelHistory | src/components/MainPanel.tsx:29-32 | from the panel's initial state, the history holds at most one entry per request, and stays empty until the first request |

## Left out

- The network, `sleep`, `console` output and the URL are not modelled. Each `fetch` is an element of the response sequence, and each sleep is a recorded wait.
- GeminiService.ProcessWithGemini: requires the network to answer at least three times. A connection that never answers is not modelled.
- The decoding done by `res.json()` is not modelled. A body is given either as the two fields the code reads, or as unreadable.
- The grammar of `JSON.parse` is not modelled; the parser is a function parameter.
- The fixed instruction text and the exact prompt layout are not modelled. A request carries the key, the prompt, the context fields and the generation settings.
- The Office.js host is not modelled: `Excel.run`, `context.sync`, the used range, the selection and the write itself. The write plans stop at what is assigned to which range. Whether the host accepts a write is an environment value; the TypeError the script itself throws on a non-string array element is modelled.
- ExcelService.WriteArrayToRange: the plan for an empty array resizes by -1 rows. What the host does with that is not modelled.
- JavaScript lets a non-string `text` or `error.message` reach `trim` or `new Error`. The model types both as strings.
- `getSurroundingData` returns an array of rows, while `processWithGemini` destructures `data`, `usedRangeAddress` and `activeCellAddress` from its argument. The model records the sample passed, and gives the gateway a `Context`. It does not reconcile the two.
- The chart branch of `handleProcess` is not modelled. `processWithGemini` never returns a chart result, so the branch cannot run.
- `createChart` and `consolidateAllSheets` are imported from the Excel service but not defined in it. They are not part of this model.
- `handleCreateChart`, `handleConsolidate`, key-file loading and drag-and-drop are not modelled. The same holds for the settings panel and the application shell. They are outside the request flow.
- History timestamps are an opaque clock reading from the environment.
- React's batching and re-rendering are not modelled. Each handler is a function from state to state.
- A second `handleProcess` started while one is running is not modelled. The Execute button and the prompt field are disabled while loading, but the "+" menu's chart and consolidate items stay enabled and start `handleProcess` through `setTimeout` (src/components/MainPanel.tsx:40, 47, 302-307), and Clear history stays enabled too (src/components/MainPanel.tsx:245-250). Overlapping runs are left out together with those menu handlers.
- src/App.tsx:59 renders `<MainPanel />` without an `apiKey` or `onApiKeyLoaded`, so in the assembled add-in the panel renders only the key-loader zone (src/components/MainPanel.tsx:204-228): the prompt, the Execute button and the "+" menu are not rendered, and loading a key file calls the missing `onApiKeyLoaded` (src/components/MainPanel.tsx:174, 188). The model takes the key as a parameter and covers both the keyless and the keyed panel.
- The TypeError messages of `ExcelService.ScriptError` follow the wording of the V8 engine. Other JavaScript engines word them differently.

=== FILE: excel_service.dfy ===
/** The decisions the Excel service computes before it touches the host
    workbook: the data sample built from the used range (`getSurroundingData`)
    and the write plans of `writeToActiveCell`, `writeToCell` and
    `writeArrayToRange`. The `Excel.run` batches themselves are not modelled. */
module ExcelService {
  import opened Wrappers
  import opened JsStrings
  import opened Json

  /** At most this many rows of the used range go into the sample. */
  const SampleRowCap: nat := 50

  /** Code of the letter `A`, the key of the first column without headers. */
  const FirstColumnCode: nat := 65

  /** "Column" */
  const ColumnPrefix: JsString := [0x43, 0x6F, 0x6C, 0x75, 0x6D, 0x6E]

  /** "__proto__": the one property name a plain object literal does not
      store. */
  const ProtoKey: JsString := [0x5F, 0x5F, 0x70, 0x72, 0x6F, 0x74, 0x6F, 0x5F, 0x5F]

  /** A cell of `usedRange.values`: text (an empty cell is the empty text),
      a number or a boolean. */
  datatype Cell = Text(s: JsString) | Number(n: real) | Boolean(b: bool)

  /** A sample row: a plain object from property names to cell values, where
      `None` is a property explicitly set to `undefined`. */
  type SampleRow = map<JsString, Option<Cell>>

  /** `obj[key] = value` on an object created by `{}`. Assigning a primitive
      or `undefined` to `__proto__` runs the inherited accessor, which ignores
      it, so that property never appears. */
  function SetProperty(obj: SampleRow, key: JsString, value: Option<Cell>): (r: SampleRow)
    ensures key != ProtoKey ==> r == obj[key := value]
    ensures key == ProtoKey ==> r == obj
  {
    if key == ProtoKey then obj else obj[key := value]
  }

  /** No key after index `i` and before `n` repeats the key at `i`. */
  ghost predicate LastBefore(keys: seq<JsString>, i: int, n: int)
    requires 0 <= i < |keys| && n <= |keys|
  {
    forall j :: i < j < n ==> keys[j] != keys[i]
  }

  /** Index `i` holds the last occurrence of its key. */
  ghost predicate LastOccurrence(keys: seq<JsString>, i: int) {
    0 <= i < |keys| && LastBefore(keys, i, |keys|)
  }

  /** The object after the first `n` assignments `obj[keys[i]] = values[i]`,
      starting from `{}`: it holds the keys assigned so far except
      `__proto__` (`AssignedLatest` gives the values). */
  function Assigned(keys: seq<JsString>, values: seq<Option<Cell>>, n: nat): (obj: SampleRow)
    requires |keys| == |values| && n <= |keys|
    ensures forall k :: k in obj <==> k in keys[..n] && k != ProtoKey
  {
    if n == 0 then map[]
    else
      assert keys[..n] == keys[..n - 1] + [keys[n - 1]];
      SetProperty(Assigned(keys, values, n - 1), keys[n - 1], values[n - 1])
  }

  /** Each key holds the value of its latest assignment so far. */
  lemma {:induction false} AssignedLatest(keys: seq<JsString>, values: seq<Option<Cell>>, n: nat, i: nat)
    requires |keys| == |values| && n <= |keys| && i < n
    requires LastBefore(keys, i, n) && keys[i] != ProtoKey
    ensures keys[i] in Assigned(keys, values, n)
    ensures Assigned(keys, values, n)[keys[i]] == values[i]
  {
    if i < n - 1 {
      assert LastBefore(keys, i, n - 1);
      AssignedLatest(keys, values, n - 1, i);
    }
  }

  lemma AllAssignedLatest(keys: seq<JsString>, values: seq<Option<Cell>>)
    requires |keys| == |values|
    ensures forall i :: LastOccurrence(keys, i) && keys[i] != ProtoKey ==>
      keys[i] in Assigned(keys, values, |keys|) && Assigned(keys, values, |keys|)[keys[i]] == values[i]
  {
    forall i | LastOccurrence(keys, i) && keys[i] != ProtoKey
      ensures keys[i] in Assigned(keys, values, |keys|) && Assigned(keys, values, |keys|)[keys[i]] == values[i]
    {
      AssignedLatest(keys, values, |keys|, i);
    }
  }

  /** The object left by `keys.forEach((key, i) => obj[key] = values[i])`
      on `{}`: every key but `__proto__` is present, and a repeated key keeps
      the value of its last occurrence. */
  function BuildObject(keys: seq<JsString>, values: seq<Option<Cell>>): (obj: SampleRow)
    requires |keys| == |values|
    ensures forall k :: k in obj <==> k in keys && k != ProtoKey
    ensures forall i :: LastOccurrence(keys, i) && keys[i] != ProtoKey ==> obj[keys[i]] == values[i]
  {
    AllAssignedLatest(keys, values);
    assert keys[..|keys|] == keys;
    Assigned(keys, values, |keys|)
  }

  /** A cell that can serve as a header: text that is not all whitespace
      (`HeaderCellTrimmed` shows this is `cell.trim() !== ''`). */
  predicate IsHeaderCell(c: Cell) {
    c.Text? && !AllWhitespace(c.s)
  }

  /** The header test is the source's: a string whose trim is not empty. */
  lemma HeaderCellTrimmed(c: Cell)
    ensures IsHeaderCell(c) <==> c.Text? && Trim(c.s) != []
  {
  }

  /** `every` over the cells from index `from` on. */
  function HeaderCellsFrom(row: seq<Cell>, from: nat): (b: bool)
    requires from <= |row|
    ensures b <==> forall i :: from <= i < |row| ==> IsHeaderCell(row[i])
    decreases |row| - from
  {
    if from == |row| then true
    else IsHeaderCell(row[from]) && HeaderCellsFrom(row, from + 1)
  }

  /** `firstRow.every(cell => typeof cell === 'string' && cell.trim() !== '')`:
      vacuously true of an empty row. */
  function HasHeaders(row: seq<Cell>): (b: bool)
    ensures b <==> forall i :: 0 <= i < |row| ==> IsHeaderCell(row[i])
  {
    HeaderCellsFrom(row, 0)
  }

  /** The header texts of a header row. */
  function HeaderTexts(row: seq<Cell>): (texts: seq<JsString>)
    requires HasHeaders(row)
    ensures |texts| == |row|
    ensures forall i :: 0 <= i < |row| ==> row[i] == Text(texts[i])
  {
    seq(|row|, i requires 0 <= i < |row| => row[i].s)
  }

  /** `header.toString() || \`Column${index}\``. */
  function HeaderKey(header: JsString, index: nat): JsString {
    if header != [] then header else ColumnPrefix + Decimal(index)
  }

  /** One data row keyed by the headers; a header past the end of the row
      gets `undefined`. */
  function HeaderRow(headers: seq<JsString>, row: seq<Cell>): SampleRow {
    BuildObject(
      seq(|headers|, i requires 0 <= i < |headers| => HeaderKey(headers[i], i)),
      seq(|headers|, i requires 0 <= i < |headers| => if i < |row| then Some(row[i]) else None))
  }

  /** `String.fromCharCode(65 + index)`: one code unit, taken modulo 2^16. */
  function ColumnKey(index: nat): JsString {
    [((FirstColumnCode + index) % 0x1_0000) as CodeUnit]
  }

  /** One row keyed by generated column letters. */
  function LetterRow(row: seq<Cell>): SampleRow {
    BuildObject(
      seq(|row|, i requires 0 <= i < |row| => ColumnKey(i)),
      seq(|row|, i requires 0 <= i < |row| => Some(row[i])))
  }

  function Limit(n: nat): nat {
    if n > SampleRowCap then SampleRowCap else n
  }

  /** The sample is keyed by the first row: it passes the header test and at
      least one other row survives the cap. */
  predicate HeaderMode(values: seq<seq<Cell>>) {
    |values| > 0 && HasHeaders(values[0]) && Limit(|values|) > 1
  }

  /** The rows after the header row, keyed by the headers. */
  function HeaderSample(limited: seq<seq<Cell>>): (sample: seq<SampleRow>)
    requires |limited| > 1 && HasHeaders(limited[0])
    ensures |sample| == |limited| - 1
    ensures forall j :: 0 <= j < |sample| ==> sample[j] == HeaderRow(HeaderTexts(limited[0]), limited[j + 1])
  {
    var headers := HeaderTexts(limited[0]);
    seq(|limited| - 1, j requires 0 <= j < |limited| - 1 => HeaderRow(headers, limited[j + 1]))
  }

  /** Every row, keyed by column letters. */
  function LetterSample(limited: seq<seq<Cell>>): (sample: seq<SampleRow>)
    ensures |sample| == |limited|
    ensures forall j :: 0 <= j < |sample| ==> sample[j] == LetterRow(limited[j])
  {
    seq(|limited|, j requires 0 <= j < |limited| => LetterRow(limited[j]))
  }

  /** The pure part of `getSurroundingData`: the used range's values become
      row objects, in source order, from at most the first 50 rows. */
  function ExtractSample(values: seq<seq<Cell>>): (sample: seq<SampleRow>)
    ensures |values| == 0 ==> sample == []
    ensures HeaderMode(values) ==>
      && |sample| == Limit(|values|) - 1
      && forall j :: 0 <= j < |sample| ==> sample[j] == HeaderRow(HeaderTexts(values[0]), values[j + 1])
    ensures !HeaderMode(values) ==>
      && |sample| == Limit(|values|)
      && forall j :: 0 <= j < |sample| ==> sample[j] == LetterRow(values[j])
  {
    if |values| == 0 then []
    else
      var limited := values[..Limit(|values|)];
      assert limited[0] == values[0];
      assert forall j :: 0 <= j < |limited| ==> limited[j] == values[j];
      if HasHeaders(limited[0]) && |limited| > 1 then HeaderSample(limited)
      else LetterSample(limited)
  }

  /** Rows past the 50th are never read: cutting them off changes nothing. */
  lemma OnlyFirstRowsRead(values: seq<seq<Cell>>)
    ensures ExtractSample(values) == ExtractSample(values[..Limit(|values|)])
  {
    var cut := values[..Limit(|values|)];
    assert Limit(|cut|) == Limit(|values|);
    assert cut[..Limit(|cut|)] == cut;
    if |values| > 0 {
      assert cut[0] == values[0];
      var a, b := ExtractSample(values), ExtractSample(cut);
      assert |a| == |b|;
      assert forall j :: 0 <= j < |a| ==> a[j] == b[j];
    }
  }

  /** Two used ranges that agree on their first 50 rows give the same
      sample. */
  lemma SameFirstRowsSameSample(v1: seq<seq<Cell>>, v2: seq<seq<Cell>>)
    requires v1[..Limit(|v1|)] == v2[..Limit(|v2|)]
    ensures ExtractSample(v1) == ExtractSample(v2)
  {
    OnlyFirstRowsRead(v1);
    OnlyFirstRowsRead(v2);
  }

  /** With headers, the `Column<i>` fallback never fires: every key is the
      header text itself. */
  lemma HeaderFallbackDead(row: seq<Cell>, i: nat)
    requires HasHeaders(row) && i < |row|
    ensures HeaderKey(HeaderTexts(row)[i], i) == HeaderTexts(row)[i]
  {
    assert IsHeaderCell(row[i]);
  }

  /** In header mode, sample row `j` is source row `j + 1` keyed by header
      text: its keys are the header texts other than `__proto__`, and the
      value under header `i` (the last column carrying that header) is the
      cell below it, or `undefined` past the end of the row. */
  lemma HeaderModeRow(values: seq<seq<Cell>>, j: nat, i: nat)
    requires HeaderMode(values)
    requires j < |ExtractSample(values)|
    requires i < |values[0]|
    ensures var headers := HeaderTexts(values[0]);
      var obj := ExtractSample(values)[j];
      var row := values[j + 1];
      && (forall k :: k in obj <==> k in headers && k != ProtoKey)
      && (LastOccurrence(headers, i) && headers[i] != ProtoKey ==>
            obj[headers[i]] == if i < |row| then Some(row[i]) else None)
  {
    var headers := HeaderTexts(values[0]);
    var keys := seq(|headers|, i requires 0 <= i < |headers| => HeaderKey(headers[i], i));
    forall m | 0 <= m < |headers|
      ensures keys[m] == headers[m]
    {
      HeaderFallbackDead(values[0], m);
    }
    assert keys == headers;
  }

  /** Column keys are pairwise distinct for the first 65536 columns. */
  lemma ColumnKeysDistinct(a: nat, b: nat)
    requires a < 0x1_0000 && b < 0x1_0000 && a != b
    ensures ColumnKey(a) != ColumnKey(b)
  {
  }

  /** `String.fromCharCode` wraps at 2^16, so column 65536 reuses the key of
      column 0; and from column 26 on the keys are no longer letters. */
  lemma ColumnKeyWraps(i: nat)
    ensures ColumnKey(i + 0x1_0000) == ColumnKey(i)
    ensures ColumnKey(26) == [OpenBracket]
  {
  }

  /** `__proto__` has nine code units, a column key one, so no column key
      is ever dropped. */
  lemma ColumnKeyNeverProto(i: nat)
    ensures ColumnKey(i) != ProtoKey
  {
    assert |ProtoKey| == 9;
  }

  /** The keys of a letter row are exactly the column keys of its cells. */
  lemma LetterRowKeys(row: seq<Cell>)
    ensures forall k :: k in LetterRow(row) <==> exists c :: 0 <= c < |row| && k == ColumnKey(c)
  {
    var keys := seq(|row|, c requires 0 <= c < |row| => ColumnKey(c));
    var obj := LetterRow(row);
    forall k
      ensures k in obj <==> exists c :: 0 <= c < |row| && k == ColumnKey(c)
    {
      if k in obj {
        var c :| 0 <= c < |keys| && keys[c] == k;
      }
      if exists c :: 0 <= c < |row| && k == ColumnKey(c) {
        var c :| 0 <= c < |row| && k == ColumnKey(c);
        assert keys[c] == k;
        ColumnKeyNeverProto(c);
      }
    }
  }

  /** For up to 65536 columns, column `i` of a letter row holds its cell. */
  lemma LetterRowValue(row: seq<Cell>, i: nat)
    requires i < |row| <= 0x1_0000
    ensures ColumnKey(i) in LetterRow(row)
    ensures LetterRow(row)[ColumnKey(i)] == Some(row[i])
  {
    var keys := seq(|row|, c requires 0 <= c < |row| => ColumnKey(c));
    ColumnKeyNeverProto(i);
    assert keys[i] == ColumnKey(i);
    assert LastOccurrence(keys, i) by {
      forall c | i < c < |keys|
        ensures keys[c] != keys[i]
      {
        ColumnKeysDistinct(i, c);
      }
    }
  }

  /** Without headers, sample row `j` is source row `j` (the first row
      included) keyed by column letters: column `i` sits under
      `ColumnKey(i)`, and for up to 65536 columns every column is present. */
  lemma LetterModeRow(values: seq<seq<Cell>>, j: nat, i: nat)
    requires !HeaderMode(values)
    requires j < |ExtractSample(values)|
    requires i < |values[j]| <= 0x1_0000
    ensures var obj := ExtractSample(values)[j];
      && ColumnKey(i) in obj
      && obj[ColumnKey(i)] == Some(values[j][i])
      && forall k :: k in obj <==> exists c :: 0 <= c < |values[j]| && k == ColumnKey(c)
  {
    assert ExtractSample(values)[j] == LetterRow(values[j]);
    LetterRowKeys(values[j]);
    LetterRowValue(values[j], i);
  }

  /** Where a write lands. */
  datatype Target = Selection | CellAt(address: JsString)

  /** Whether a block is assigned to `range.formulas` or `range.values`. */
  datatype Mode = Formulas | Values

  /** One write: the target, how far the target is resized (rows, columns),
      the matrix assigned, and as what. */
  datatype WritePlan = WritePlan(target: Target, rowDelta: int, columnDelta: int,
                                 block: seq<seq<JsonValue>>, mode: Mode)

  predicate IsFormula(v: JsString) {
    StartsWith(v, EqualsSign)
  }

  function SingleWrite(target: Target, value: JsString): WritePlan {
    WritePlan(target, 0, 0, [[JString(value)]],
              if IsFormula(value) then Formulas else Values)
  }

  /** `writeToActiveCell`: a 1x1 write to the selection, as a formula exactly
      when the value starts with `=`. */
  function WriteToActiveCell(value: JsString): (p: WritePlan)
    ensures p.target == Selection && p.rowDelta == 0 && p.columnDelta == 0
    ensures p.block == [[JString(value)]]
    ensures p.mode == Formulas <==> |value| > 0 && value[0] == EqualsSign
  {
    SingleWrite(Selection, value)
  }

  /** `writeToCell`: the same 1x1 write, to the named cell. */
  function WriteToCell(address: JsString, value: JsString): (p: WritePlan)
    ensures p.target == CellAt(address) && p.rowDelta == 0 && p.columnDelta == 0
    ensures p.block == [[JString(value)]]
    ensures p.mode == Formulas <==> |value| > 0 && value[0] == EqualsSign
  {
    SingleWrite(CellAt(address), value)
  }

  /** An element `some` passes over: a string not starting with `=`. */
  predicate PlainText(v: JsonValue) {
    v.JString? && !IsFormula(v.s)
  }

  predicate FormulaText(v: JsonValue) {
    v.JString? && IsFormula(v.s)
  }

  /** "v.startsWith is not a function" */
  const NotAFunctionMessage: JsString := [0x76, 0x2E, 0x73, 0x74, 0x61, 0x72, 0x74, 0x73, 0x57, 0x69, 0x74, 0x68, 0x20, 0x69, 0x73, 0x20, 0x6E, 0x6F, 0x74, 0x20, 0x61, 0x20, 0x66, 0x75, 0x6E, 0x63, 0x74, 0x69, 0x6F, 0x6E]
  /** "Cannot read properties of null (reading 'startsWith')" */
  const NullReceiverMessage: JsString := [0x43, 0x61, 0x6E, 0x6E, 0x6F, 0x74, 0x20, 0x72, 0x65, 0x61, 0x64, 0x20, 0x70, 0x72, 0x6F, 0x70, 0x65, 0x72, 0x74, 0x69, 0x65, 0x73, 0x20, 0x6F, 0x66, 0x20, 0x6E, 0x75, 0x6C, 0x6C, 0x20, 0x28, 0x72, 0x65, 0x61, 0x64, 0x69, 0x6E, 0x67, 0x20, 0x27, 0x73, 0x74, 0x61, 0x72, 0x74, 0x73, 0x57, 0x69, 0x74, 0x68, 0x27, 0x29]

  /** Calling `v.startsWith` on a non-string element throws a TypeError;
      `index` is the element it was called on. A `null` element cannot have
      its property read at all; any other non-string has no `startsWith`. */
  datatype ScriptError = NotAFunction(index: nat) | NullReceiver(index: nat)
  {
    /** The TypeError's message, in the wording of the V8 engine. */
    function Message(): JsString {
      if NullReceiver? then NullReceiverMessage else NotAFunctionMessage
    }
  }

  /** `some` over the elements from index `from` on. */
  function SomeFormulaFrom(values: seq<JsonValue>, from: nat): (r: Result<bool, ScriptError>)
    requires from <= |values|
    ensures r == Success(false) <==> forall i :: from <= i < |values| ==> PlainText(values[i])
    ensures r == Success(true) <==>
      exists i :: from <= i < |values| && FormulaText(values[i]) &&
        forall j :: from <= j < i ==> PlainText(values[j])
    ensures r.Failure? ==>
      && from <= r.error.index < |values|
      && !values[r.error.index].JString?
      && (forall j :: from <= j < r.error.index ==> PlainText(values[j]))
      && (r.error.NullReceiver? <==> values[r.error.index].JNull?)
    decreases |values| - from
  {
    if from == |values| then Success(false)
    else if values[from].JNull? then Failure(NullReceiver(from))
    else if !values[from].JString? then Failure(NotAFunction(from))
    else if IsFormula(values[from].s) then Success(true)
    else SomeFormulaFrom(values, from + 1)
  }

  /** `values.some(v => v.startsWith("="))`, which stops at the first formula
      and throws at a non-string element it reaches first. */
  function SomeFormula(values: seq<JsonValue>): (r: Result<bool, ScriptError>)
    ensures r == Success(false) <==> forall i :: 0 <= i < |values| ==> PlainText(values[i])
    ensures r == Success(true) <==>
      exists i :: 0 <= i < |values| && FormulaText(values[i]) &&
        forall j :: 0 <= j < i ==> PlainText(values[j])
    ensures r.Failure? ==>
      && r.error.index < |values|
      && !values[r.error.index].JString?
      && (forall j :: 0 <= j < r.error.index ==> PlainText(values[j]))
      && (r.error.NullReceiver? <==> values[r.error.index].JNull?)
  {
    SomeFormulaFrom(values, 0)
  }

  /** `writeArrayToRange`: the selection grows by `len - 1` rows, the block
      is one column holding the values in order, and it is written as
      formulas exactly when some element starts with `=` before any
      non-string element stops the scan with a TypeError. */
  function WriteArrayToRange(values: seq<JsonValue>): (r: Result<WritePlan, ScriptError>)
    ensures r.Failure? <==>
      exists i :: 0 <= i < |values| && !values[i].JString? &&
        forall j :: 0 <= j < i ==> PlainText(values[j])
    ensures r.Failure? ==>
      && r.error.index < |values|
      && !values[r.error.index].JString?
      && (forall j :: 0 <= j < r.error.index ==> PlainText(values[j]))
      && (r.error.NullReceiver? <==> values[r.error.index].JNull?)
    ensures r.Success? ==>
      && r.value.target == Selection
      && r.value.rowDelta == |values| - 1
      && r.value.columnDelta == 0
      && |r.value.block| == r.value.rowDelta + 1
      && (forall i :: 0 <= i < |values| ==> r.value.block[i] == [values[i]])
      && (r.value.mode == Formulas <==> exists i :: 0 <= i < |values| && FormulaText(values[i]))
  {
    var cellValues := seq(|values|, i requires 0 <= i < |values| => [values[i]]);
    match SomeFormula(values)
    case Failure(e) => Failure(e)
    case Success(hasFormula) =>
      Success(WritePlan(Selection, |values| - 1, 0, cellValues,
                        if hasFormula then Formulas else Values))
  }

  /** A one-element array is written exactly as the single value would be. */
  lemma SingletonArrayWritesLikeSingle(value: JsString)
    ensures WriteArrayToRange([JString(value)]) == Success(WriteToActiveCell(value))
  {
    var values := [JString(value)];
    var plan := WriteArrayToRange(values).value;
    assert plan.block == [[JString(value)]];
    if IsFormula(value) {
      assert FormulaText(values[0]);
    }
  }
}

=== FILE: gemini_service.dfy ===
/** The gateway to the Gemini model (`processWithGemini`): one request body,
    sent up to three times while the service answers 404 or 429, then the
    reply text classified as a single value or an array of values.

    The network is a sequence of responses, one per `fetch`; the back-off
    sleeps become the list of waits the loop would have slept. */
module GeminiService {
  import opened Wrappers
  import opened JsStrings
  import opened Json

  const MaxRetries: nat := 3
  const BackoffStepMs: nat := 3000
  /** The waits before the second and third attempt. */
  const BackoffSchedule: seq<nat> := [3000, 6000]
  const Temperature: real := 0.1
  const MaxOutputTokens: nat := 2048

  /** "Không nhận được phản hồi từ AI." */
  const NoResponseMessage: JsString := [0x4B, 0x68, 0xF4, 0x6E, 0x67, 0x20, 0x6E, 0x68, 0x1EAD, 0x6E, 0x20, 0x0111, 0x01B0, 0x1EE3, 0x63, 0x20, 0x70, 0x68, 0x1EA3, 0x6E, 0x20, 0x68, 0x1ED3, 0x69, 0x20, 0x74, 0x1EEB, 0x20, 0x41, 0x49, 0x2E]
  /** "HTTP " */
  const HttpPrefix: JsString := [0x48, 0x54, 0x54, 0x50, 0x20]
  /** ": " */
  const StatusSeparator: JsString := [0x3A, 0x20]
  /** "Không thể kết nối tới Gemini API sau nhiều lần thử." */
  const ExhaustedMessage: JsString := [0x4B, 0x68, 0xF4, 0x6E, 0x67, 0x20, 0x74, 0x68, 0x1EC3, 0x20, 0x6B, 0x1EBF, 0x74, 0x20, 0x6E, 0x1ED1, 0x69, 0x20, 0x74, 0x1EDB, 0x69, 0x20, 0x47, 0x65, 0x6D, 0x69, 0x6E, 0x69, 0x20, 0x41, 0x50, 0x49, 0x20, 0x73, 0x61, 0x75, 0x20, 0x6E, 0x68, 0x69, 0x1EC1, 0x75, 0x20, 0x6C, 0x1EA7, 0x6E, 0x20, 0x74, 0x68, 0x1EED, 0x2E]

  /** The three fields read from the context argument, each as the text it
      contributes to the prompt. */
  datatype Context = Context(data: JsString, usedRangeAddress: JsString, activeCellAddress: JsString)

  /** What one `fetch` sends: the key goes into the URL, the prompt and the
      context into the single text part, plus the generation settings. The
      fixed instruction text is not modelled. */
  datatype Request = Request(
    apiKey: JsString,
    prompt: JsString,
    context: Context,
    temperature: real,
    maxOutputTokens: nat)

  function BuildRequest(apiKey: JsString, prompt: JsString, context: Context): Request {
    Request(apiKey, prompt, context, Temperature, MaxOutputTokens)
  }

  /** A response body after `res.json()`: either decoded, with the two paths
      the code reads (`error.message` and `candidates[0].content.parts[0].text`),
      or not JSON at all, in which case `res.json()` rejects with `reason`. */
  datatype Body =
    | Decoded(errorMessage: Option<JsString>, text: Option<JsString>)
    | Undecodable(reason: JsString)

  /** One outcome of `fetch`: an HTTP response, or a rejected promise. */
  datatype Response =
    | Http(ok: bool, status: nat, statusText: JsString, body: Body)
    | NetworkError(reason: JsString)

  datatype GeminiResult = Single(value: JsString) | Array(values: seq<JsonValue>)

  /** What `processWithGemini` can throw. */
  datatype GatewayError =
    | HttpError(status: nat, message: JsString)
    | NoResponse
    | RetriesExhausted
    | FetchFailed(reason: JsString)
    | BodyUnreadable(reason: JsString)
  {
    /** The `message` of the thrown `Error`. */
    function Message(): JsString {
      match this
      case HttpError(_, m) => m
      case NoResponse => NoResponseMessage
      case RetriesExhausted => ExhaustedMessage
      case FetchFailed(r) => r
      case BodyUnreadable(r) => r
    }
  }

  /** Everything observable about one call: the requests sent, the waits
      slept between them, and the value returned or the error thrown. */
  datatype Trace = Trace(sent: seq<Request>, waits: seq<nat>, outcome: Result<GeminiResult, GatewayError>)

  predicate Retryable(status: nat) {
    status == 404 || status == 429
  }

  /** A response the loop retries when an attempt is left. */
  predicate Transient(res: Response) {
    res.Http? && !res.ok && Retryable(res.status)
  }

  /** The message thrown for a failed HTTP response: the body's
      `error.message` when it is a non-empty string, else
      `HTTP <status>: <statusText>`. */
  function HttpErrorMessage(body: Body, status: nat, statusText: JsString): (m: JsString)
    ensures m != []
    ensures body.Decoded? && body.errorMessage.Some? && body.errorMessage.value != [] ==>
      m == body.errorMessage.value
    ensures (body.Undecodable? || body.errorMessage.GetOr([]) == []) ==>
      m == HttpPrefix + Decimal(status) + StatusSeparator + statusText
  {
    var fromBody := if body.Decoded? then body.errorMessage.GetOr([]) else [];
    if fromBody != [] then fromBody
    else HttpPrefix + Decimal(status) + StatusSeparator + statusText
  }

  /** The status a fallback message names: the digits right after `HTTP `. */
  function StatusOf(m: JsString): Option<nat> {
    if |m| >= |HttpPrefix| && m[..|HttpPrefix|] == HttpPrefix then
      var k := LeadingDigits(m, |HttpPrefix|);
      var digits := m[|HttpPrefix|..k];
      assert forall j :: 0 <= j < |digits| ==> digits[j] == m[|HttpPrefix| + j];
      if digits == [] then None else Some(DecimalValue(digits))
    else None
  }

  /** The fallback message loses nothing of the status: reading the digits
      after `HTTP ` up to the `:` gives it back, whatever the status text. */
  lemma StatusReadBack(body: Body, status: nat, statusText: JsString)
    requires body.Undecodable? || body.errorMessage.GetOr([]) == []
    ensures StatusOf(HttpErrorMessage(body, status, statusText)) == Some(status)
  {
    var m := HttpErrorMessage(body, status, statusText);
    var d := Decimal(status);
    var n := |HttpPrefix| + |d|;
    assert m[..|HttpPrefix|] == HttpPrefix;
    assert m[n] == StatusSeparator[0];
    assert forall j :: |HttpPrefix| <= j < n ==> m[j] == d[j - |HttpPrefix|];
    LeadingDigitsStop(m, |HttpPrefix|, n);
    assert m[|HttpPrefix|..n] == d;
    DecimalRoundTrip(status);
  }

  /** Two failed responses without a body message, with different statuses,
      throw different messages. */
  lemma FallbackMessagesDistinct(body: Body, s1: nat, s2: nat, text1: JsString, text2: JsString)
    requires body.Undecodable? || body.errorMessage.GetOr([]) == []
    requires s1 != s2
    ensures HttpErrorMessage(body, s1, text1) != HttpErrorMessage(body, s2, text2)
  {
    StatusReadBack(body, s1, text1);
    StatusReadBack(body, s2, text2);
  }

  predicate Bracketed(t: JsString) {
    StartsWith(t, OpenBracket) && EndsWith(t, CloseBracket)
  }

  /** The reply text classified: trimmed, and an array exactly when the
      trimmed text is bracketed and parses to a JSON array. Never throws. */
  function Classify(parse: Parser, text: JsString): (r: GeminiResult)
    ensures r.Array? <==>
      Bracketed(Trim(text)) && parse(Trim(text)).Some? && parse(Trim(text)).value.JArray?
    ensures r.Array? ==> parse(Trim(text)) == Some(JArray(r.values))
    ensures r.Single? ==> r.value == Trim(text)
  {
    var trimmed := Trim(text);
    if Bracketed(trimmed) then
      match parse(trimmed)
      case Some(JArray(elems)) => Array(elems)
      case _ => Single(trimmed)
    else
      Single(trimmed)
  }

  /** What a response that is not retried makes of the call. */
  function Settle(parse: Parser, res: Response): (o: Result<GeminiResult, GatewayError>)
    ensures o != Failure(RetriesExhausted)
    ensures o.Success? <==>
      res.Http? && res.ok && res.body.Decoded? && res.body.text.GetOr([]) != []
    ensures o.Success? ==> o.value == Classify(parse, res.body.text.value)
    ensures res.Http? && !res.ok ==>
      o == Failure(HttpError(res.status, HttpErrorMessage(res.body, res.status, res.statusText)))
    ensures res.NetworkError? ==> o == Failure(FetchFailed(res.reason))
    ensures res.Http? && res.ok && res.body.Undecodable? ==> o == Failure(BodyUnreadable(res.body.reason))
    ensures res.Http? && res.ok && res.body.Decoded? && res.body.text.GetOr([]) == [] ==>
      o == Failure(NoResponse)
  {
    match res
    case NetworkError(reason) => Failure(FetchFailed(reason))
    case Http(ok, status, statusText, body) =>
      if !ok then
        Failure(HttpError(status, HttpErrorMessage(body, status, statusText)))
      else
        match body
        case Undecodable(reason) => Failure(BodyUnreadable(reason))
        case Decoded(_, text) =>
          if text.None? || text.value == [] then Failure(NoResponse)
          else Success(Classify(parse, text.value))
  }

  /** The `for` loop from `attempt` on; `responses[0]` answers this attempt. */
  function Loop(req: Request, parse: Parser, responses: seq<Response>, attempt: nat): (t: Trace)
    requires 1 <= attempt <= MaxRetries + 1
    requires |responses| >= MaxRetries + 1 - attempt
    decreases MaxRetries + 1 - attempt
    ensures attempt > MaxRetries ==> t == Trace([], [], Failure(RetriesExhausted))
    ensures attempt <= MaxRetries ==>
      && 1 <= |t.sent| <= MaxRetries + 1 - attempt
      && |t.waits| == |t.sent| - 1
      && (|t.sent| < MaxRetries + 1 - attempt ==> !Transient(responses[|t.sent| - 1]))
      && t.outcome == Settle(parse, responses[|t.sent| - 1])
    ensures forall i :: 0 <= i < |t.sent| ==> t.sent[i] == req
    ensures forall i :: 0 <= i < |t.waits| ==> t.waits[i] == (attempt + i) * BackoffStepMs
    ensures forall i :: 0 <= i < |t.sent| - 1 ==> Transient(responses[i])
  {
    if attempt > MaxRetries then
      Trace([], [], Failure(RetriesExhausted))
    else if Transient(responses[0]) && attempt < MaxRetries then
      var rest := Loop(req, parse, responses[1..], attempt + 1);
      Trace([req] + rest.sent, [attempt * BackoffStepMs] + rest.waits, rest.outcome)
    else
      Trace([req], [], Settle(parse, responses[0]))
  }

  /** `processWithGemini`, given the responses the network would return. */
  function ProcessWithGemini(
    apiKey: JsString, prompt: JsString, context: Context,
    parse: Parser, responses: seq<Response>): (t: Trace)
    requires |responses| >= MaxRetries
    ensures 1 <= |t.sent| <= MaxRetries
    ensures forall i :: 0 <= i < |t.sent| ==> t.sent[i] == BuildRequest(apiKey, prompt, context)
    ensures forall i :: 0 <= i < |t.sent| - 1 ==> Transient(responses[i])
    ensures |t.sent| < MaxRetries ==> !Transient(responses[|t.sent| - 1])
    ensures t.waits == BackoffSchedule[..|t.sent| - 1]
    ensures t.outcome == Settle(parse, responses[|t.sent| - 1])
    ensures t.outcome != Failure(RetriesExhausted)
  {
    var t := Loop(BuildRequest(apiKey, prompt, context), parse, responses, 1);
    assert t.waits == BackoffSchedule[..|t.sent| - 1];
    t
  }

  /** The number of requests is fixed by the responses: one more than the
      leading run of 404/429 answers, at most three. */
  lemma SentCount(apiKey: JsString, prompt: JsString, context: Context,
                  parse: Parser, responses: seq<Response>, k: nat)
    requires |responses| >= MaxRetries && k < MaxRetries
    requires forall i :: 0 <= i < k ==> Transient(responses[i])
    requires k == MaxRetries - 1 || !Transient(responses[k])
    ensures |ProcessWithGemini(apiKey, prompt, context, parse, responses).sent| == k + 1
  {
  }

  /** Three 404/429 answers in a row: three requests, waits of 3000 and
      6000 ms, and the third answer's HTTP error is thrown. */
  lemma ThreeTransientsFail(apiKey: JsString, prompt: JsString, context: Context,
                            parse: Parser, responses: seq<Response>)
    requires |responses| >= MaxRetries
    requires Transient(responses[0]) && Transient(responses[1]) && Transient(responses[2])
    ensures var t := ProcessWithGemini(apiKey, prompt, context, parse, responses);
      var last := responses[2];
      && |t.sent| == 3
      && t.waits == [3000, 6000]
      && t.outcome == Failure(HttpError(last.status, HttpErrorMessage(last.body, last.status, last.statusText)))
  {
    SentCount(apiKey, prompt, context, parse, responses, 2);
  }

  /** An answer that is neither a 404/429 with attempts left is final: a
      failed HTTP answer throws its message, a successful one with no text
      throws the no-response error, and in neither case is a later answer
      requested. */
  lemma FirstFinalAnswerDecides(apiKey: JsString, prompt: JsString, context: Context,
                                parse: Parser, responses: seq<Response>, k: nat)
    requires |responses| >= MaxRetries && k < MaxRetries
    requires forall i :: 0 <= i < k ==> Transient(responses[i])
    requires k == MaxRetries - 1 || !Transient(responses[k])
    ensures var t := ProcessWithGemini(apiKey, prompt, context, parse, responses);
      var res := responses[k];
      && |t.sent| == k + 1
      && (res.Http? && !res.ok ==>
            t.outcome == Failure(HttpError(res.status, HttpErrorMessage(res.body, res.status, res.statusText))))
      && (res.Http? && res.ok && res.body.Decoded? && res.body.text.GetOr([]) == [] ==>
            t.outcome == Failure(NoResponse))
      && (res.Http? && res.ok && res.body.Undecodable? ==>
            t.outcome == Failure(BodyUnreadable(res.body.reason)))
      && (res.Http? && res.ok && res.body.Decoded? && res.body.text.GetOr([]) != [] ==>
            t.outcome == Success(Classify(parse, res.body.text.value)))
      && (res.NetworkError? ==> t.outcome == Failure(FetchFailed(res.reason)))
  {
    SentCount(apiKey, prompt, context, parse, responses, k);
  }

  /** The loop reads no answer beyond the one it settles on. */
  lemma {:induction false} LoopReadsOnlyWhatItSends(
    req: Request, parse: Parser, r1: seq<Response>, r2: seq<Response>, attempt: nat)
    requires 1 <= attempt <= MaxRetries + 1
    requires |r1| >= MaxRetries + 1 - attempt && |r2| >= MaxRetries + 1 - attempt
    requires var n := |Loop(req, parse, r1, attempt).sent|; r1[..n] == r2[..n]
    ensures Loop(req, parse, r1, attempt) == Loop(req, parse, r2, attempt)
    decreases MaxRetries + 1 - attempt
  {
    if attempt <= MaxRetries {
      var t := Loop(req, parse, r1, attempt);
      assert r1[0] == r1[..|t.sent|][0] == r2[..|t.sent|][0] == r2[0];
      if Transient(r1[0]) && attempt < MaxRetries {
        var rest := Loop(req, parse, r1[1..], attempt + 1);
        assert r1[1..][..|rest.sent|] == r1[..|t.sent|][1..];
        assert r2[1..][..|rest.sent|] == r2[..|t.sent|][1..];
        LoopReadsOnlyWhatItSends(req, parse, r1[1..], r2[1..], attempt + 1);
      }
    }
  }

  /** Two networks that agree on every answer the call consumed give the
      same call; in particular the classification depends only on the first
      successful answer. */
  lemma OnlyConsumedResponsesMatter(apiKey: JsString, prompt: JsString, context: Context,
                                    parse: Parser, r1: seq<Response>, r2: seq<Response>)
    requires |r1| >= MaxRetries && |r2| >= MaxRetries
    requires forall i :: 0 <= i < |ProcessWithGemini(apiKey, prompt, context, parse, r1).sent| ==> r1[i] == r2[i]
    ensures ProcessWithGemini(apiKey, prompt, context, parse, r1)
         == ProcessWithGemini(apiKey, prompt, context, parse, r2)
  {
    var req := BuildRequest(apiKey, prompt, context);
    var n := |Loop(req, parse, r1, 1).sent|;
    assert n == |ProcessWithGemini(apiKey, prompt, context, parse, r1).sent|;
    assert forall i :: 0 <= i < n ==> r1[..n][i] == r1[i] == r2[i] == r2[..n][i];
    assert r1[..n] == r2[..n];
    LoopReadsOnlyWhatItSends(req, parse, r1, r2, 1);
  }

  /** The call as a caller sees it: the result, or the thrown message. */
  function AsCallResult(t: Trace): (r: Result<GeminiResult, JsString>)
    ensures t.outcome.Success? <==> r.Success?
    ensures r.Success? ==> r.value == t.outcome.value
    ensures r.Failure? ==> r.error == t.outcome.error.Message()
  {
    match t.outcome
    case Success(v) => Success(v)
    case Failure(e) => Failure(e.Message())
  }
}

=== FILE: js_strings.dfy ===
/** JavaScript strings as the add-in sees them: sequences of UTF-16 code units,
    with the handful of `String.prototype` operations the core uses
    (`trim`, `startsWith`, `endsWith`, `String.fromCharCode`) and the decimal
    rendering a template literal gives an integer. Text constants elsewhere
    are written as their code units, with the text in a doc comment. */
module JsStrings {

  /** One UTF-16 code unit. Lone surrogates are allowed, as in JavaScript. */
  newtype CodeUnit = x: int | 0 <= x < 0x1_0000

  type JsString = seq<CodeUnit>

  const EqualsSign: CodeUnit := 0x3D    // '='
  const OpenBracket: CodeUnit := 0x5B   // '['
  const CloseBracket: CodeUnit := 0x5D  // ']'
  const DigitZero: CodeUnit := 0x30     // '0'

  /** The code units `String.prototype.trim` strips: ECMAScript WhiteSpace
      (TAB, VT, FF, ZWNBSP and category Zs) and LineTerminator (LF, CR, LS, PS). */
  predicate IsWhitespace(c: CodeUnit) {
    || c == 0x09 || c == 0x0A || c == 0x0B || c == 0x0C || c == 0x0D
    || c == 0x20 || c == 0xA0 || c == 0x1680
    || (0x2000 <= c <= 0x200A)
    || c == 0x2028 || c == 0x2029 || c == 0x202F || c == 0x205F
    || c == 0x3000 || c == 0xFEFF
  }

  predicate AllWhitespace(s: JsString) {
    forall k :: 0 <= k < |s| ==> IsWhitespace(s[k])
  }

  /** The first index at or after `i` that does not hold whitespace, or
      `|s|` when there is none. */
  function SkipLeading(s: JsString, i: nat): (k: nat)
    requires i <= |s|
    ensures i <= k <= |s|
    ensures forall j :: i <= j < k ==> IsWhitespace(s[j])
    ensures k == |s| || !IsWhitespace(s[k])
    decreases |s| - i
  {
    if i < |s| && IsWhitespace(s[i]) then SkipLeading(s, i + 1) else i
  }

  /** The end of `s[..n]` once trailing whitespace is cut off. */
  function SkipTrailing(s: JsString, n: nat): (k: nat)
    requires n <= |s|
    ensures k <= n
    ensures forall j :: k <= j < n ==> IsWhitespace(s[j])
    ensures k == 0 || !IsWhitespace(s[k - 1])
  {
    if n > 0 && IsWhitespace(s[n - 1]) then SkipTrailing(s, n - 1) else n
  }

  /** Strips leading whitespace: the result is the longest suffix that does
      not start with whitespace, and everything cut off is whitespace. */
  function TrimStart(s: JsString): (r: JsString)
    ensures |r| <= |s| && r == s[|s| - |r|..]
    ensures AllWhitespace(s[..|s| - |r|])
    ensures r == [] || !IsWhitespace(r[0])
    ensures r == [] <==> AllWhitespace(s)
  {
    var k := SkipLeading(s, 0);
    assert forall j :: 0 <= j < k ==> s[..k][j] == s[j];
    s[k..]
  }

  /** Strips trailing whitespace: the result is the longest prefix that does
      not end with whitespace, and everything cut off is whitespace. */
  function TrimEnd(s: JsString): (r: JsString)
    ensures |r| <= |s| && r == s[..|r|]
    ensures AllWhitespace(s[|r|..])
    ensures r == [] || !IsWhitespace(r[|r| - 1])
    ensures r == [] <==> AllWhitespace(s)
  {
    var k := SkipTrailing(s, |s|);
    assert forall j :: 0 <= j < |s| - k ==> s[k..][j] == s[k + j];
    s[..k]
  }

  /** Reference definition of trimming: `r` is the infix of `s` that starts
      at `i`, only whitespace surrounds it, and it neither starts nor ends
      with whitespace. */
  ghost predicate TrimmedAt(r: JsString, s: JsString, i: int) {
    && 0 <= i <= |s| - |r|
    && r == s[i..i + |r|]
    && AllWhitespace(s[..i])
    && AllWhitespace(s[i + |r|..])
    && (r == [] || (!IsWhitespace(r[0]) && !IsWhitespace(r[|r| - 1])))
  }

  ghost predicate IsTrimOf(r: JsString, s: JsString) {
    exists i :: TrimmedAt(r, s, i)
  }

  /** `String.prototype.trim`: blank exactly when `s` is all whitespace
      (`TrimIsTrim` relates it to the reference definition). */
  function Trim(s: JsString): (r: JsString)
    ensures |r| <= |s|
    ensures r == [] <==> AllWhitespace(s)
  {
    var head := TrimStart(s);
    var r := TrimEnd(head);
    assert head != [] ==> !AllWhitespace(head);
    r
  }

  /** `Trim` meets the reference definition. */
  lemma TrimIsTrim(s: JsString)
    ensures IsTrimOf(Trim(s), s)
  {
    var head := TrimStart(s);
    var r := TrimEnd(head);
    assert r == Trim(s);
    var i := |s| - |head|;
    assert s[i..i + |r|] == head[..|r|] == r;
    assert s[i + |r|..] == head[|r|..];
    assert r != [] ==> r[0] == head[0];
    assert TrimmedAt(r, s, i);
  }

  /** Two positions that both start the non-blank part of `s` coincide. */
  lemma SameStart(s: JsString, a: int, b: int)
    requires 0 <= a < |s| && 0 <= b < |s|
    requires AllWhitespace(s[..a]) && AllWhitespace(s[..b])
    requires !IsWhitespace(s[a]) && !IsWhitespace(s[b])
    ensures a == b
  {
  }

  /** Two positions that both end the non-blank part of `s` coincide. */
  lemma SameEnd(s: JsString, a: int, b: int)
    requires 0 < a <= |s| && 0 < b <= |s|
    requires AllWhitespace(s[a..]) && AllWhitespace(s[b..])
    requires !IsWhitespace(s[a - 1]) && !IsWhitespace(s[b - 1])
    ensures a == b
  {
  }

  /** A blank trim means `s` is all whitespace, so no other trim exists. */
  lemma BlankTrim(r: JsString, s: JsString, i: int)
    requires TrimmedAt(r, s, i) && r == []
    ensures AllWhitespace(s)
  {
    assert s == s[..i] + s[i..];
  }

  lemma TrimmedAtEqual(r: JsString, t: JsString, s: JsString, i: int, i': int)
    requires TrimmedAt(r, s, i) && TrimmedAt(t, s, i')
    ensures r == t
  {
    if r == [] {
      BlankTrim(r, s, i);
    } else if t == [] {
      BlankTrim(t, s, i');
    } else {
      SameStart(s, i, i');
      SameEnd(s, i + |r|, i' + |t|);
    }
  }

  /** Only one string is a trim of `s`, so `Trim` is exactly the reference
      definition. */
  lemma TrimUnique(r: JsString, s: JsString)
    requires IsTrimOf(r, s)
    ensures r == Trim(s)
  {
    var t := Trim(s);
    TrimIsTrim(s);
    var i :| TrimmedAt(r, s, i);
    var i' :| TrimmedAt(t, s, i');
    TrimmedAtEqual(r, t, s, i, i');
  }

  lemma TrimIdempotent(s: JsString)
    ensures Trim(Trim(s)) == Trim(s)
  {
    var t := Trim(s);
    assert TrimmedAt(t, t, 0) by {
      assert t[0..|t|] == t;
      TrimIsTrim(s);
    }
    TrimUnique(t, t);
  }

  /** `s.startsWith(c)` for a one-character argument. */
  predicate StartsWith(s: JsString, c: CodeUnit) {
    |s| > 0 && s[0] == c
  }

  /** `s.endsWith(c)` for a one-character argument. */
  predicate EndsWith(s: JsString, c: CodeUnit) {
    |s| > 0 && s[|s| - 1] == c
  }

  predicate IsDigit(c: CodeUnit) {
    DigitZero <= c <= DigitZero + 9
  }

  /** The end of the run of decimal digits that starts at `i`. */
  function LeadingDigits(s: JsString, i: nat): (k: nat)
    requires i <= |s|
    ensures i <= k <= |s|
    ensures forall j :: i <= j < k ==> IsDigit(s[j])
    ensures k == |s| || !IsDigit(s[k])
    decreases |s| - i
  {
    if i < |s| && IsDigit(s[i]) then LeadingDigits(s, i + 1) else i
  }

  /** A run of digits ends at the first non-digit after it. */
  lemma {:induction false} LeadingDigitsStop(s: JsString, i: nat, n: nat)
    requires i <= n < |s|
    requires forall j :: i <= j < n ==> IsDigit(s[j])
    requires !IsDigit(s[n])
    ensures LeadingDigits(s, i) == n
    decreases n - i
  {
    if i < n {
      LeadingDigitsStop(s, i + 1, n);
    }
  }

  /** The digits of `n` in base 10, as `${n}` renders a non-negative integer:
      no sign and no leading zero. */
  function Decimal(n: nat): (r: JsString)
    ensures |r| >= 1
    ensures forall k :: 0 <= k < |r| ==> IsDigit(r[k])
    ensures |r| > 1 ==> r[0] != DigitZero
  {
    if n < 10 then [DigitZero + n as CodeUnit]
    else Decimal(n / 10) + [DigitZero + (n % 10) as CodeUnit]
  }

  /** Reads a string of decimal digits back as a number. */
  function DecimalValue(s: JsString): nat
    requires forall k :: 0 <= k < |s| ==> IsDigit(s[k])
  {
    if s == [] then 0
    else
      assert IsDigit(s[|s| - 1]);
      10 * DecimalValue(s[..|s| - 1]) + (s[|s| - 1] as int - DigitZero as int)
  }

  /** `Decimal` loses nothing: reading its digits back gives the number. */
  lemma {:induction false} DecimalRoundTrip(n: nat)
    ensures DecimalValue(Decimal(n)) == n
  {
    if n >= 10 {
      var d := Decimal(n);
      assert d[..|d| - 1] == Decimal(n / 10);
      DecimalRoundTrip(n / 10);
    }
  }

  lemma DecimalInjective(m: nat, n: nat)
    ensures Decimal(m) == Decimal(n) ==> m == n
  {
    DecimalRoundTrip(m);
    DecimalRoundTrip(n);
  }
}

=== FILE: json.dfy ===
/** The JSON values the add-in can receive from `JSON.parse`. */
module Json {
  import opened Wrappers
  import opened JsStrings

  datatype JsonValue =
    | JString(s: JsString)
    | JNumber(n: real)
    | JBool(b: bool)
    | JNull
    | JArray(elems: seq<JsonValue>)
    | JObject(members: seq<(JsString, JsonValue)>)

  /** `JSON.parse` as an oracle: `None` when it throws a SyntaxError. The
      grammar itself is not modelled. */
  type Parser = JsString -> Option<JsonValue>
}

=== FILE: main_panel.dfy ===
/** The request session of the main panel: `handleProcess`, which checks the
    key and the prompt, reads the sheet, asks Gemini, writes the answer and
    records it; `clearHistory`; and the two small handlers that edit the
    prompt and dismiss the error. The services it awaits are given as their
    outcomes; what they were called with is recorded as a list of calls. */
module MainPanel {
  import opened Wrappers
  import opened JsStrings
  import opened Json
  import ExcelService
  import GeminiService

  /** "Vui lòng nạp Key để bắt đầu." */
  const LoadKeyMessage: JsString := [0x56, 0x75, 0x69, 0x20, 0x6C, 0xF2, 0x6E, 0x67, 0x20, 0x6E, 0x1EA1, 0x70, 0x20, 0x4B, 0x65, 0x79, 0x20, 0x0111, 0x1EC3, 0x20, 0x62, 0x1EAF, 0x74, 0x20, 0x0111, 0x1EA7, 0x75, 0x2E]
  /** "Vui lòng nhập yêu cầu của bạn." */
  const EnterRequestMessage: JsString := [0x56, 0x75, 0x69, 0x20, 0x6C, 0xF2, 0x6E, 0x67, 0x20, 0x6E, 0x68, 0x1EAD, 0x70, 0x20, 0x79, 0xEA, 0x75, 0x20, 0x63, 0x1EA7, 0x75, 0x20, 0x63, 0x1EE7, 0x61, 0x20, 0x62, 0x1EA1, 0x6E, 0x2E]
  /** "Lỗi: " */
  const ErrorPrefix: JsString := [0x4C, 0x1ED7, 0x69, 0x3A, 0x20]
  /** "Không thể xử lý yêu cầu." */
  const DefaultFailureMessage: JsString := [0x4B, 0x68, 0xF4, 0x6E, 0x67, 0x20, 0x74, 0x68, 0x1EC3, 0x20, 0x78, 0x1EED, 0x20, 0x6C, 0xFD, 0x20, 0x79, 0xEA, 0x75, 0x20, 0x63, 0x1EA7, 0x75, 0x2E]
  /** " giá trị]" */
  const CountSuffix: JsString := [0x20, 0x67, 0x69, 0xE1, 0x20, 0x74, 0x72, 0x1ECB, 0x5D]

  /** One history line; the timestamp is an opaque clock reading. */
  datatype HistoryEntry = HistoryEntry(prompt: JsString, result: JsString, timestamp: int)

  /** The panel's React state, `error == None` standing for `null`. */
  datatype Session = Session(prompt: JsString, loading: bool, error: Option<JsString>, history: seq<HistoryEntry>)

  /** The state the panel's `useState` calls start from: an empty prompt,
      not loading, no error and no history. */
  const InitialSession: Session := Session([], false, None, [])

  /** A call into the services, with the arguments it receives. */
  datatype ServiceCall =
    | ReadSample
    | AskGemini(apiKey: JsString, prompt: JsString, sample: seq<ExcelService.SampleRow>)
    | WriteCell(value: JsString)
    | WriteColumn(values: seq<JsonValue>)

  /** What the awaited services do when called: return a value or throw an
      error with the given message. `write` is what the host does with a
      write: `None` when it accepts it. A TypeError that `writeArrayToRange`
      throws before the host is reached is not part of the environment; it
      follows from the values. `now` is the clock reading for a new history
      entry. */
  datatype Environment = Environment(
    sample: Result<seq<ExcelService.SampleRow>, JsString>,
    gemini: Result<GeminiService.GeminiResult, JsString>,
    write: Option<JsString>,
    now: int)

  /** One run of `handleProcess`: the state while it awaits the services
      (`None` when a guard returns early), the state once it has finished,
      and the services it called, in order. */
  datatype Step = Step(busy: Option<Session>, after: Session, calls: seq<ServiceCall>)

  /** `apiKey` is truthy: present and not empty. */
  predicate HasKey(apiKey: Option<JsString>) {
    apiKey.Some? && apiKey.value != []
  }

  /** The request gets past both guards: a key, and a prompt that is not
      all whitespace, which by `Trim`'s contract is `prompt.trim()` being
      non-empty. */
  predicate Accepted(apiKey: Option<JsString>, s: Session) {
    HasKey(apiKey) && !AllWhitespace(s.prompt)
  }

  /** `Lỗi: ${err.message || 'Không thể xử lý yêu cầu.'}`. */
  function FailureText(message: JsString): (text: JsString)
    ensures |ErrorPrefix| <= |text|
    ensures text[..|ErrorPrefix|] == ErrorPrefix
    ensures message != [] ==> text[|ErrorPrefix|..] == message
    ensures message == [] ==> text[|ErrorPrefix|..] == DefaultFailureMessage
  {
    ErrorPrefix + (if message != [] then message else DefaultFailureMessage)
  }

  /** `[${values.length} giá trị]`. */
  function ArraySummary(values: seq<JsonValue>): JsString {
    [OpenBracket] + Decimal(|values|) + CountSuffix
  }

  /** The history summary of an array names how many values were written. */
  lemma ArraySummaryCount(values: seq<JsonValue>)
    ensures var text := ArraySummary(values);
      var digits := text[1..|text| - |CountSuffix|];
      && (forall k :: 0 <= k < |digits| ==> IsDigit(digits[k]))
      && DecimalValue(digits) == |values|
  {
    var text := ArraySummary(values);
    assert text[1..|text| - |CountSuffix|] == Decimal(|values|);
    DecimalRoundTrip(|values|);
  }

  /** The end of a run that failed with `message`. */
  function Failed(busy: Session, message: JsString, calls: seq<ServiceCall>): Step {
    Step(Some(busy), busy.(loading := false, error := Some(FailureText(message))), calls)
  }

  /** The end of a run that wrote its result with `call`; a successful write
      appends `summary` to the history. */
  function AfterWrite(busy: Session, env: Environment, calls: seq<ServiceCall>,
                      call: ServiceCall, summary: JsString): Step {
    match env.write
    case Some(m) => Failed(busy, m, calls + [call])
    case None =>
      var entry := HistoryEntry(busy.prompt, summary, env.now);
      Step(Some(busy), busy.(loading := false, history := busy.history + [entry]), calls + [call])
  }

  /** The part of `handleProcess` after the guards: the error is cleared
      and loading set before the first await; at the end loading is off,
      only error and history differ from `s`, and history gains at most one
      entry, none when an error is reported. */
  function Dispatch(apiKey: JsString, s: Session, env: Environment): (st: Step)
    ensures st.busy == Some(s.(loading := true, error := None))
    ensures st.after == s.(loading := false, error := st.after.error, history := st.after.history)
    ensures s.history <= st.after.history && |st.after.history| <= |s.history| + 1
    ensures st.after.error.Some? ==> st.after.history == s.history
    ensures 1 <= |st.calls| <= 3 && st.calls[0] == ReadSample
  {
    var busy := s.(loading := true, error := None);
    match env.sample
    case Failure(m) => Failed(busy, m, [ReadSample])
    case Success(sample) =>
      var asked := [ReadSample, AskGemini(apiKey, s.prompt, sample)];
      match env.gemini
      case Failure(m) => Failed(busy, m, asked)
      case Success(result) =>
        if result.Array? then
          match ExcelService.WriteArrayToRange(result.values)
          case Failure(e) => Failed(busy, e.Message(), asked + [WriteColumn(result.values)])
          case Success(_) =>
            AfterWrite(busy, env, asked, WriteColumn(result.values), ArraySummary(result.values))
        else if result.value == [] then
          Step(Some(busy), busy.(loading := false), asked)
        else
          AfterWrite(busy, env, asked, WriteCell(result.value), result.value)
  }

  /** `handleProcess`: without a key, or with a blank prompt, only the error
      changes and no service is called; otherwise the error is cleared and
      loading set while the services run, and loading is off at the end. */
  function HandleProcess(apiKey: Option<JsString>, s: Session, env: Environment): (st: Step)
    ensures !HasKey(apiKey) ==> st == Step(None, s.(error := Some(LoadKeyMessage)), [])
    ensures HasKey(apiKey) && Trim(s.prompt) == [] ==>
      st == Step(None, s.(error := Some(EnterRequestMessage)), [])
    ensures Accepted(apiKey, s) ==>
      && st.busy == Some(s.(loading := true, error := None))
      && !st.after.loading
      && st.after.prompt == s.prompt
      && 1 <= |st.calls| <= 3
      && st.calls[0] == ReadSample
    ensures s.history <= st.after.history && |st.after.history| <= |s.history| + 1
    ensures Accepted(apiKey, s) && st.after.error.Some? ==> st.after.history == s.history
  {
    if !HasKey(apiKey) then
      Step(None, s.(error := Some(LoadKeyMessage)), [])
    else if Trim(s.prompt) == [] then
      Step(None, s.(error := Some(EnterRequestMessage)), [])
    else
      Dispatch(apiKey.value, s, env)
  }

  /** The key is checked before the prompt: with neither, the key message
      wins. */
  lemma KeyCheckedFirst(s: Session, env: Environment)
    requires Trim(s.prompt) == []
    ensures HandleProcess(None, s, env).after.error == Some(LoadKeyMessage)
    ensures HandleProcess(Some([]), s, env).after.error == Some(LoadKeyMessage)
  {
  }

  /** A non-empty single answer is written to the active cell and recorded
      once, with the answer as its result. */
  lemma SingleAnswerRecorded(apiKey: Option<JsString>, s: Session, env: Environment,
                             sample: seq<ExcelService.SampleRow>, value: JsString)
    requires Accepted(apiKey, s)
    requires env.sample == Success(sample)
    requires env.gemini == Success(GeminiService.Single(value)) && value != []
    requires env.write == None
    ensures var st := HandleProcess(apiKey, s, env);
      && st.after == s.(loading := false, error := None,
                        history := s.history + [HistoryEntry(s.prompt, value, env.now)])
      && st.calls == [ReadSample, AskGemini(apiKey.value, s.prompt, sample), WriteCell(value)]
  {
    var busy := s.(loading := true, error := None);
    var asked := [ReadSample, AskGemini(apiKey.value, s.prompt, sample)];
    assert Dispatch(apiKey.value, s, env) == AfterWrite(busy, env, asked, WriteCell(value), value);
  }

  /** An array answer the script can write is written as a column and
      recorded once, with the number of values as its result. */
  lemma ArrayAnswerRecorded(apiKey: Option<JsString>, s: Session, env: Environment,
                            sample: seq<ExcelService.SampleRow>, values: seq<JsonValue>)
    requires Accepted(apiKey, s)
    requires env.sample == Success(sample)
    requires env.gemini == Success(GeminiService.Array(values))
    requires ExcelService.WriteArrayToRange(values).Success?
    requires env.write == None
    ensures var st := HandleProcess(apiKey, s, env);
      && st.after == s.(loading := false, error := None,
                        history := s.history + [HistoryEntry(s.prompt, ArraySummary(values), env.now)])
      && st.calls == [ReadSample, AskGemini(apiKey.value, s.prompt, sample), WriteColumn(values)]
  {
    var busy := s.(loading := true, error := None);
    var asked := [ReadSample, AskGemini(apiKey.value, s.prompt, sample)];
    assert Dispatch(apiKey.value, s, env) == AfterWrite(busy, env, asked, WriteColumn(values), ArraySummary(values));
  }

  /** An empty single answer writes nothing, records nothing and reports no
      error. */
  lemma EmptyAnswerIgnored(apiKey: Option<JsString>, s: Session, env: Environment,
                           sample: seq<ExcelService.SampleRow>)
    requires Accepted(apiKey, s)
    requires env.sample == Success(sample)
    requires env.gemini == Success(GeminiService.Single([]))
    ensures var st := HandleProcess(apiKey, s, env);
      && st.after == s.(loading := false, error := None)
      && st.calls == [ReadSample, AskGemini(apiKey.value, s.prompt, sample)]
  {
  }

  /** When reading the sheet throws, Gemini is not asked: the message is
      shown behind the error prefix, or the default text when it is empty,
      and prompt and history stay as they were. */
  lemma SampleFailureReported(apiKey: Option<JsString>, s: Session, env: Environment, message: JsString)
    requires Accepted(apiKey, s)
    requires env.sample == Failure(message)
    ensures var st := HandleProcess(apiKey, s, env);
      && st.after == s.(loading := false, error := Some(FailureText(message)))
      && st.calls == [ReadSample]
  {
  }

  /** When the Gemini call throws, nothing is written and the message is
      shown in the same way. */
  lemma GeminiFailureReported(apiKey: Option<JsString>, s: Session, env: Environment, message: JsString)
    requires Accepted(apiKey, s)
    requires env.sample.Success? && env.gemini == Failure(message)
    ensures var st := HandleProcess(apiKey, s, env);
      && st.after == s.(loading := false, error := Some(FailureText(message)))
      && st.calls == [ReadSample, AskGemini(apiKey.value, s.prompt, env.sample.value)]
  {
  }

  /** When the host rejects the write, no history entry is made and the
      message is shown in the same way. */
  lemma WriteFailureReported(apiKey: Option<JsString>, s: Session, env: Environment, message: JsString)
    requires Accepted(apiKey, s)
    requires env.sample.Success? && env.gemini.Success? && env.write == Some(message)
    requires env.gemini.value.Array? ==> ExcelService.WriteArrayToRange(env.gemini.value.values).Success?
    requires env.gemini.value.Array? || env.gemini.value.value != []
    ensures var st := HandleProcess(apiKey, s, env);
      && st.after == s.(loading := false, error := Some(FailureText(message)))
      && |st.calls| == 3
  {
    var busy := s.(loading := true, error := None);
    var asked := [ReadSample, AskGemini(apiKey.value, s.prompt, env.sample.value)];
    var result := env.gemini.value;
    var call := if result.Array? then WriteColumn(result.values) else WriteCell(result.value);
    var summary := if result.Array? then ArraySummary(result.values) else result.value;
    assert Dispatch(apiKey.value, s, env) == AfterWrite(busy, env, asked, call, summary);
  }

  /** An array with a non-string element before any formula makes
      `writeArrayToRange` throw a TypeError before the host is reached:
      whatever the host would have done, no history entry is made and the
      TypeError's message is shown. */
  lemma ArrayTypeErrorReported(apiKey: Option<JsString>, s: Session, env: Environment,
                               sample: seq<ExcelService.SampleRow>, values: seq<JsonValue>, i: nat)
    requires Accepted(apiKey, s)
    requires env.sample == Success(sample)
    requires env.gemini == Success(GeminiService.Array(values))
    requires i < |values| && !values[i].JString?
    requires forall j :: 0 <= j < i ==> ExcelService.PlainText(values[j])
    ensures var st := HandleProcess(apiKey, s, env);
      var message := if values[i].JNull? then ExcelService.NullReceiverMessage
                     else ExcelService.NotAFunctionMessage;
      && st.after == s.(loading := false, error := Some(FailureText(message)))
      && st.calls == [ReadSample, AskGemini(apiKey.value, s.prompt, sample), WriteColumn(values)]
  {
    var r := ExcelService.WriteArrayToRange(values);
    assert r.Failure?;
    assert r.error.index == i;
  }

  /** Wired to the gateway: when the call fails with an HTTP error, the
      panel shows that error's own message, which is never empty, so the
      default text never replaces it. */
  lemma GatewayHttpErrorShown(apiKey: Option<JsString>, s: Session, env: Environment,
                              context: GeminiService.Context, parse: Parser,
                              responses: seq<GeminiService.Response>)
    requires Accepted(apiKey, s)
    requires env.sample.Success?
    requires |responses| >= GeminiService.MaxRetries
    requires var t := GeminiService.ProcessWithGemini(apiKey.value, s.prompt, context, parse, responses);
      && env.gemini == GeminiService.AsCallResult(t)
      && t.outcome.Failure? && t.outcome.error.HttpError?
    ensures var t := GeminiService.ProcessWithGemini(apiKey.value, s.prompt, context, parse, responses);
      && t.outcome.error.message != []
      && HandleProcess(apiKey, s, env).after.error == Some(ErrorPrefix + t.outcome.error.message)
  {
  }

  /** `clearHistory`: the history empties and nothing else changes. */
  function ClearHistory(s: Session): (r: Session)
    ensures r.history == []
    ensures r.(history := s.history) == s
  {
    s.(history := [])
  }

  /** The panel's handlers that change the session. */
  datatype Event =
    | Process(apiKey: Option<JsString>, env: Environment)
    | Clear
    | EditPrompt(value: Option<JsString>)
    | DismissError

  /** One handler: editing the prompt (`setPrompt(val || '')`) changes
      only the prompt, dismissing the error only the error, clearing only the
      history; a request keeps the prompt and adds at most one history entry. */
  function Apply(s: Session, e: Event): (r: Session)
    ensures e.EditPrompt? ==> r.prompt == e.value.GetOr([]) && r.(prompt := s.prompt) == s
    ensures e.DismissError? ==> r.error == None && r.(error := s.error) == s
    ensures e.Clear? ==> r.history == [] && r.(history := s.history) == s
    ensures e.Process? ==>
      r.prompt == s.prompt && s.history <= r.history && |r.history| <= |s.history| + 1
  {
    match e
    case Process(apiKey, env) => HandleProcess(apiKey, s, env).after
    case Clear => ClearHistory(s)
    case EditPrompt(value) => s.(prompt := value.GetOr([]))
    case DismissError => s.(error := None)
  }

  /** The handlers in order. Editing the prompt and dismissing the error
      never touch the history. */
  function Run(s: Session, events: seq<Event>): (r: Session)
    ensures (forall i :: 0 <= i < |events| ==> events[i].EditPrompt? || events[i].DismissError?) ==>
      r.history == s.history
    decreases |events|
  {
    if events == [] then s
    else
      assert forall i :: 0 <= i < |events| - 1 ==> events[1..][i] == events[i + 1];
      Run(Apply(s, events[0]), events[1..])
  }

  /** Until the history is cleared it only grows at the end, by at most one
      entry per request. */
  lemma {:induction false} HistoryOnlyAppends(s: Session, events: seq<Event>)
    requires forall i :: 0 <= i < |events| ==> !events[i].Clear?
    ensures s.history <= Run(s, events).history
    ensures |Run(s, events).history| <= |s.history| + |events|
    decreases |events|
  {
    if events != [] {
      var next := Apply(s, events[0]);
      assert s.history <= next.history && |next.history| <= |s.history| + 1;
      HistoryOnlyAppends(next, events[1..]);
    }
  }

  /** After a clear, the history holds only entries recorded since. */
  lemma {:induction false} HistorySinceLastClear(s: Session, events: seq<Event>)
    requires |events| > 0 && events[0].Clear?
    requires forall i :: 0 < i < |events| ==> !events[i].Clear?
    ensures |Run(s, events).history| <= |events| - 1
  {
    HistoryOnlyAppends(ClearHistory(s), events[1..]);
  }

  /** How many requests a run of events makes. */
  function Requests(events: seq<Event>): (n: nat)
    ensures n <= |events|
    ensures (forall i :: 0 <= i < |events| ==> !events[i].Process?) ==> n == 0
  {
    if events == [] then 0
    else
      assert forall i :: 0 <= i < |events| - 1 ==> events[1..][i] == events[i + 1];
      (if events[0].Process? then 1 else 0) + Requests(events[1..])
  }

  /** Every history entry is owed to a request: clears, edits and
      dismissals never add one. */
  lemma {:induction false} HistoryBoundedByRequests(s: Session, events: seq<Event>)
    ensures |Run(s, events).history| <= |s.history| + Requests(events)
    decreases |events|
  {
    if events != [] {
      var next := Apply(s, events[0]);
      assert |next.history| <= |s.history| + (if events[0].Process? then 1 else 0);
      HistoryBoundedByRequests(next, events[1..]);
    }
  }

  /** A freshly opened panel holds at most one history entry per request
      made since, and none before the first request. */
  lemma FreshPanelHistory(events: seq<Event>)
    ensures |Run(InitialSession, events).history| <= Requests(events)
    ensures (forall i :: 0 <= i < |events| ==> !events[i].Process?) ==>
      Run(InitialSession, events).history == []
  {
    HistoryBoundedByRequests(InitialSession, events);
  }
}

=== FILE: wrappers.dfy ===
/** Failure-carrying datatypes shared by the model: `Option` stands for a value
    that JavaScript may leave `undefined`, `Result` for a computation that may
    throw. */
module Wrappers {

  datatype Option<+T> = None | Some(value: T) {

    /** The value, or `default` when absent. */
    function GetOr(default: T): T {
      match this
      case Some(v) => v
      case None => default
    }
  }

  /** `Failure` is a thrown exception (or a rejected promise). */
  datatype Result<+R, +E> = Success(value: R) | Failure(error: E)
}
